=== FILE: README.md ===
# yroom room synchronisation, modelled in Dafny

This project models the core of `yroom`: the room registry
(`YRoomManager`), the per-room synchronisation state machine (`YRoom`),
the batching message encoder (`EncoderWrapper`) and the header stage of
the message decoder (`DecoderWrapper`). All of it lives in
`src/roomsync.rs`.

A server that relays Yjs collaborative-editing traffic passes each
connection's bytes to the manager. It gets back two payloads per call: a
private reply for the sender and a broadcast for every other connection
of the same room. The manager creates rooms lazily. A room's settings are
the first configured name prefix the room name starts with, or the
default. A room keeps:

- a document replica;
- a presence (awareness) store;
- a connection table that maps each connection to the presence client ids
  it introduced.

The presence clients listed for a connection are removed from the store
when that connection disconnects.

Files, one module each:

- `wrappers.dfy`: `Option` and `Result`.
- `protocol.dfy`: the wire vocabulary.
  - Protocol version and its byte (1 or 2).
  - State vectors, awareness diffs.
  - The five message kinds of the y-sync protocol.
- `settings.dfy`: room settings, the default settings, prefix resolution
  (`find_settings`) and how `new_with_settings` splits its configuration.
- `codec.dfy`:
  - `EncoderWrapper` and `to_vec`, with a reference decoder for the
    round trip.
  - The header stage of `DecoderWrapper::new`, over an external reader.
- `engine.dfy`: the document engine and presence store the room depends
  on. Document operations are uninterpreted functions in a `DocEngine`
  value. The presence store's client states and meta clocks are concrete,
  because disconnect cleanup is stated over them.
- `room.dfy`: `YRoom`, which covers:
  - creation with an optional seed;
  - `connect` and its handshake;
  - the `handle_message` dispatch, one reader result at a time;
  - `disconnect` cleanup, `serialize`, `is_alive`.
- `room_properties.dfy`: properties over whole batches and over several
  operations:
  - batches compose;
  - decodable updates are relayed in order;
  - the kind of every reply and broadcast entry is predicted;
  - ownership and cleanup;
  - liveness.
- `manager.dfy`: `YRoomManager` and its public operations.
- `manager_properties.dfy`: registry laws and the end-to-end scenarios of
  `tests/test_yroom.py`.

Encoded bytes are modelled as a `Wire`: either zero bytes, or the list of
writes (an optional name string, then messages) that an encoder of a
given version performs. The V2 encoder is columnar, so its output is not
a concatenation of per-message encodings. The reference reader `ReadWire`
recovers the name and the messages, and it is the partner of `ToVec` in
every round-trip statement.

Two places where the room code falls short of the intended behaviour; the
model follows the code:

- **Single ownership of client ids is not enforced by the room.** The
  intended behaviour is that every presence client id is owned by exactly
  one connection. The room code does not check this. It adds to the
  sender's set whatever the presence store reports as added, so it relies
  on the store reporting each id as added at most once per room. The
  store is external here and unconstrained. For a store that reports an
  id already owned by another connection as added,
  `RoomProperties.OwnershipMayOverlap` states that both connections then
  own it.
- **No name prefix on connect or disconnect.** `connect` and `disconnect`
  never write a name prefix, even in a room with `name_prefix` set (see
  the FIXME at `src/roomsync.rs:609`). Only `handle_message` replies carry
  the decoded document name.

## Model

| member | source | states |
|---|---|---|
| Protocol.VersionFromByte | src/roomsync.rs:139-148 | version byte 1 is V1 and 2 is V2; the byte written for the version read back is the input byte |
| Protocol.VersionByteRoundTrip | src/roomsync.rs:139-148 | the byte-to-version conversion and the version's byte are mutually inverse on both versions |
| Settings.FindSettings | src/roomsync.rs:269-276 | the result is the settings of the first entry whose prefix starts the room name, and the default exactly when no entry matches |
| Settings.FirstMatchDetermines | src/roomsync.rs:269-276 | whichever entry is the first match determines the resolved settings, even when later entries also match |
| Settings.AppendAfterMatch | src/roomsync.rs:269-276 | entries added after a matching entry never change the resolution of that room |
| Settings.ResolveScenario | src/roomsync.rs:269-276 | with the single prefix entry "docs:" (V1 settings) and a V2 default, "docs:alpha" resolves to the entry's settings and "other" to the default |
| Settings.PrefixEntries | src/roomsync.rs:229-235 | the prefix table holds exactly the non-"default" entries of the configuration and is no longer than it |
| Settings.PrefixEntriesAppend | src/roomsync.rs:229-235 | the prefix table keeps configuration order: a split configuration filters to the concatenation of its filtered parts, and a single entry is kept exactly when its key is not "default" |
| Settings.DefaultEntry | src/roomsync.rs:223-226 | the fallback is the "default" entry's settings when the configuration has one, otherwise `YRoomSettings::default` (V1, no name prefix, server starts sync) |
| Settings.PrefixEntriesResolve | src/roomsync.rs:222-241 | a room resolves to the configuration entry that is its first matching non-default key |
| Settings.PrefixEntriesNoMatch | src/roomsync.rs:222-241 | a room that no non-default key prefixes resolves to the fallback |
| Codec.NewEncoder | src/roomsync.rs:42-48 | a new encoder holds no messages, keeps the given version and prefix, and encodes to zero bytes |
| Codec.Push | src/roomsync.rs:49-51 | pushing adds the message at the end of the batch, keeps version and prefix, and makes the batch encode to a frame |
| Codec.ToVec | src/roomsync.rs:52-81 | an empty batch encodes to zero bytes, with no name prefix either; a non-empty one is a frame in the encoder's version |
| Codec.EncodeDecodeRoundTrip | src/roomsync.rs:52-81 | for both versions, reading a non-empty batch back with the matching prefix expectation gives the name and every pushed message in push order; the zero bytes of an empty batch read back as an empty batch exactly for V1 without a name |
| Codec.ReadMessageWrites | src/roomsync.rs:62-64 | the messages written one after another are read back one after another, unchanged |
| Codec.PushOrder | src/roomsync.rs:49-51 | pushing appends the message after the messages already in the batch |
| Codec.NewDecoder | src/roomsync.rs:92-126 | the header fails exactly when the V2 decoder cannot open or the expected name cannot be read; V1 without a prefix never fails; a name is returned exactly when one is expected, it is the string read from the opened decoder, and message reading resumes right after it (or at the start when no name is expected) |
| Engine.RemoveState | src/roomsync.rs:602-605 | removing a client drops only its state and advances its 32-bit meta clock by one, wrapping from the largest value to 0 (to 1 if it had none); every other state and clock is unchanged |
| Engine.RemoveStates | src/roomsync.rs:600-606 | removing a set of clients drops exactly their states and advances exactly their clocks |
| Engine.RemoveStatesStep | src/roomsync.rs:602-605 | removing one more client extends the order-independent removal of a set |
| YRoom.NewRoom | src/roomsync.rs:432-449 | a new room has no connections and an empty presence store; without a seed, or with a seed that does not decode, its document is empty |
| YRoom.SeedDecodedAsV1 | src/roomsync.rs:435-443 | the seed is decoded with the V1 codec whatever the room's version, and a decodable seed is applied to the empty document |
| YRoom.IsAlive | src/roomsync.rs:625-627 | a room is alive exactly when some connection is registered |
| YRoom.EncodedCarries | src/roomsync.rs:52-81 | an encoded batch carries its name and messages, or zero bytes for no messages |
| YRoom.Connect | src/roomsync.rs:451-474 | registers the connection and keeps an existing owned set; never broadcasts; with server-start sync the reply has no name prefix and holds SyncStep1 with the document's state vector, plus the full presence when the store has clients and can encode them; otherwise the reply is empty |
| YRoom.HandleItem | src/roomsync.rs:504-590 | SyncStep1 is answered with the diff against the sender's vector; a SyncStep2 diff decoded with the room's codec is applied to the document; an Update decoded as V1 is applied and echoed, and only then; Auth is always granted; AwarenessQuery is answered with the full presence when the store can encode it; an awareness diff is applied, the sender gains the clients it added and loses the ones it removed, and the full presence afterwards is broadcast when it can be encoded; no other connection's entry changes |
| YRoom.OwnedAfter | src/roomsync.rs:562-573 | after an awareness apply the sender has an entry that holds what it owned plus the added ids, minus the removed ones; no other connection's entry changes |
| YRoom.HandleItems | src/roomsync.rs:504-590 | a batch only appends reply- and broadcast-shaped messages, at most one per input, only for inputs routed there, and touches no other connection's entry |
| YRoom.HandleMessage | src/roomsync.rs:476-596 | a header error leaves the room unchanged and answers with two empty payloads; otherwise both payloads carry the decoded document name and the reply and broadcast lists of the batch |
| YRoom.RemoveOwnedStates | src/roomsync.rs:600-606 | removing a connection's clients one at a time, in any order, gives the set removal, and none of them keeps a state |
| YRoom.Disconnect | src/roomsync.rs:598-615 | the connection is dropped and the presence becomes exactly the store with the connection's owned clients removed (their states gone, their meta clocks advanced, everything else unchanged); the broadcast is that presence, without a name prefix, or zero bytes when the store cannot encode it |
| RoomProperties.HandleItemsAppend | src/roomsync.rs:504-590 | handling a batch in two parts is handling it whole |
| RoomProperties.UpdatesRelayed | src/roomsync.rs:533-544 | the broadcast relays exactly the batch's V1-decodable update payloads, verbatim and in reader order |
| RoomProperties.HandleItemKinds | src/roomsync.rs:504-590 | each input appends exactly the predicted kind of message to the reply and to the broadcast |
| RoomProperties.HandleItemsReplyKinds | src/roomsync.rs:504-590 | the reply holds, in order, one message of the predicted kind for every SyncStep1, Auth and AwarenessQuery of the batch |
| RoomProperties.HandleItemsBroadcastKinds | src/roomsync.rs:504-590 | the broadcast holds, in order, one message for every V1-decodable update and every awareness diff of the batch |
| RoomProperties.AwarenessThenDisconnect | src/roomsync.rs:555-615 | a connection that sent an awareness diff and then disconnects removes exactly the clients it owns afterwards |
| RoomProperties.OwnershipMayOverlap | src/roomsync.rs:562-577 | a client already owned by one connection and added by another's diff is owned by both, and either disconnect removes its state |
| RoomProperties.ConnectMakesAlive | src/roomsync.rs:451-457 | after a connect the room is alive |
| RoomProperties.DisconnectLiveness | src/roomsync.rs:598-608 | after a disconnect the room is alive exactly when another connection remains |
| RoomProperties.TwoConnectionsLifecycle | tests/test_yroom.py:84-95 | with two connections the room survives the first disconnect and dies with the second |
| RoomManager.NewWithDefault | src/roomsync.rs:242-248 | no rooms, and every name resolves to `YRoomSettings::default` |
| RoomManager.NewWithSettings | src/roomsync.rs:222-241 | no rooms; a name resolves to its first matching non-default key's settings, or to the "default" entry when no key matches |
| RoomManager.TouchesOnlyKeepsValid | src/roomsync.rs:249-267 | an operation that only creates or changes the named room keeps every room on its resolved settings |
| RoomManager.GetRoom | src/roomsync.rs:261-267 | an existing room is returned untouched; an unknown one is created with the resolved settings and no seed; no other room changes |
| RoomManager.GetRoomWithData | src/roomsync.rs:249-259 | like get_room, but a newly created room is seeded; an existing room ignores the seed |
| RoomManager.Connect | src/roomsync.rs:291-293 | creates the room if needed; the stored room and the answer are those of the room's connect; only that room changes; nothing is broadcast |
| RoomManager.ConnectWithData | src/roomsync.rs:294-296 | a new room starts from the seeded document; the stored room and the answer are those of the room's connect; for an existing room the call is exactly connect |
| RoomManager.HandleMessage | src/roomsync.rs:298-300 | creates the room if needed, even when the header then fails; the stored room and the answer are those of the room's handle_message; other connections' entries and other rooms are untouched |
| RoomManager.Disconnect | src/roomsync.rs:302-308 | never a private reply; the stored room and the broadcast are those of the room's disconnect, for a room created first if it is unknown |
| RoomManager.HasRoom | src/roomsync.rs:310-312 | a room is known exactly when it is registered, and every alive room is known |
| RoomManager.IsRoomAlive | src/roomsync.rs:314-320 | false for an unknown room, otherwise whether the room has a connection |
| RoomManager.SerializeRoom | src/roomsync.rs:322-328 | nothing for an unknown room, otherwise the room's full document state (`YRoom::serialize`, against the empty state vector) encoded in its version |
| RoomManager.RemoveRoom | src/roomsync.rs:330-332 | the room is gone; every other room and the configuration are unchanged |
| RoomManager.ListRooms | src/roomsync.rs:334-336 | lists exactly the registered rooms |
| ManagerProperties.GetRoomIdempotent | src/roomsync.rs:249-267 | looking up a room twice creates it once; a seed offered for an existing room is ignored |
| ManagerProperties.RemoveAfterCreate | src/roomsync.rs:330-332 | removing a room that a lookup just created gives back the registry as it was |
| ManagerProperties.OperationsKeepValid | src/roomsync.rs:249-267 | every registry operation keeps each room on the settings its name resolves to |
| ManagerProperties.FreshRegistryValid | src/roomsync.rs:222-248 | both constructors start consistent |
| ManagerProperties.SnapshotFollowsDocument | src/roomsync.rs:617-623 | connecting, disconnecting and a message whose header fails never change a room's snapshot, and no operation on one room changes another room's snapshot |
| ManagerProperties.ConnectScenario | tests/test_yroom.py:4-15 | connect gives a non-empty reply and no broadcast; the room is listed and alive until it is removed |
| ManagerProperties.ConnectWithDataScenario | tests/test_yroom.py:18-64 | connect with a seed gives a non-empty reply and no broadcast, and the room serializes to a seed the engine re-encodes unchanged |
| ManagerProperties.DisconnectScenario | tests/test_yroom.py:67-81 | disconnect gives no reply and a presence broadcast; the room stays listed but is not alive; after removal it is gone |
| ManagerProperties.ConnectMultipleScenario | tests/test_yroom.py:84-95 | with two connections the room is alive until both have disconnected |

## Left out

- The Python binding layer is not modelled:
  - the `#[pymethods]` wrappers, `YRoomMessage`'s `__str__`/`__repr__`, the GIL and `PyBytes` conversions;
  - `FromPyObject` extraction of settings, which fills a missing key with the default value and panics on a value of the wrong type or a version other than 1 or 2;
  - `lib.rs` as a whole.
- NewWithSettings: the configuration mapping is given as a list of already extracted `(key, settings)` pairs with distinct keys, as a Python dict guarantees.
- The `export_*` methods are not modelled; they only serialise document contents for Python.
- The CRDT document, update decoding and application, diff and snapshot encoding, and the awareness store's diff encoding and application are uninterpreted functions of `DocEngine`. Any such function can be plugged in.
- The lib0 byte grammar is not modelled: varints, strings, the V1/V2 encoders, and the message reader.
  - Encoded bytes are a `Wire` write log.
  - A frame with at least one message is taken to be non-empty bytes.
  - The reader is an uninterpreted `WireReader`.
- Codec.NewDecoder: the decoder's iterator is materialised as the finite sequence of per-message results the external reader yields. How the reader stops on a malformed tail is the reader's business.
- The `Mutex`, `Arc` and the `on_update` subscription are not modelled. The subscription's effect, adding the diff's added ids and removing its removed ids, is applied directly.
- Logging is not modelled, and neither are the error values that are only logged. This includes an awareness apply error: whatever the store reports as changed is what the model applies.
- The awareness meta timestamp set by `remove_state` is not modelled; only the state removal and the clock bump are.
- Engine.RemoveState: the store's meta clock is a `u32` advanced by an unchecked `+ 1`. The model wraps the largest clock to 0, as a release build does; the overflow panic of a debug build is not modelled.
- `HashMap` iteration order is not modelled. `list_rooms` is a set, and `disconnect` removes the owned ids through the order-independent `RemoveStates`.
- Protocol.VersionFromByte: any other byte makes the source panic. That is a precondition here, not a modelled failure.
- RoomProperties.HandleItemKinds: stated only for stores that can encode every presence (`PresenceEncodes`). When encoding fails the source pushes nothing for AwarenessQuery or Awareness; `YRoom.HandleItem` states that case.
- RoomProperties.HandleItemsReplyKinds: stated only for stores that can encode every presence, for the same reason.
- RoomProperties.HandleItemsBroadcastKinds: stated only for stores that can encode every presence, for the same reason.
- YRoom.HandleItems: the exact kinds of the appended messages, per input, are stated by `RoomProperties.HandleItemsReplyKinds` and `HandleItemsBroadcastKinds` rather than in this contract.
- YRoom.Disconnect: the broadcast is the store's full presence after the removals, not a diff that names the removed clients. Whether the other connections learn of the removals depends on the external presence encoder; the room code itself never names the removed ids.
- ManagerProperties.ConnectWithDataScenario: the test's seed bytes and the document they encode are not modelled. Serializing back to the seed is stated for any engine whose V1 decode and re-encode of the seed is the identity.
- ManagerProperties.DisconnectScenario: a non-empty broadcast is stated for stores that can encode their presence; the store's encoder is external.

=== FILE: codec.dfy ===
/** The batching encoder and the header stage of the decoder around the
    external sync-protocol codec.

    The byte grammar (lib0 varints, the V1 and V2 update encoders, the
    message reader) is external. An encoded batch is therefore modelled as
    the sequence of writes the encoder performs, tagged with the encoder's
    version; the V2 encoder is columnar, so its bytes are not a simple
    concatenation of per-message encodings. */
module Codec {
  import opened Wrappers
  import opened Protocol

  /** One write into an encoder: a length-prefixed string or a message. */
  datatype Write = WriteString(s: string) | WriteMessage(message: Message)

  /** Bytes produced by `EncoderWrapper::to_vec`: either zero bytes or what
      the `version` encoder produces for `writes`. */
  datatype Wire = NoBytes | Frame(version: ProtocolVersion, writes: seq<Write>)

  /** `EncoderWrapper`: a version, the pushed messages and an optional
      name written before them. */
  datatype EncoderWrapper = EncoderWrapper(
    version: ProtocolVersion,
    messages: seq<Message>,
    prefix: Option<string>)

  /** `EncoderWrapper::new`: an empty batch, which encodes to zero bytes
      whatever its prefix. */
  function NewEncoder(version: ProtocolVersion, prefix: Option<string>): (e: EncoderWrapper)
    ensures e.version == version && e.prefix == prefix && e.messages == []
    ensures ToVec(e) == NoBytes
  {
    EncoderWrapper(version, [], prefix)
  }

  /** `EncoderWrapper::push`: the batch grows by `m` at its end; the
      version and the prefix stay, and the batch now encodes to a frame. */
  function Push(e: EncoderWrapper, m: Message): (e': EncoderWrapper)
    ensures e'.version == e.version && e'.prefix == e.prefix
    ensures |e'.messages| == |e.messages| + 1 && e.messages <= e'.messages && e'.messages[|e.messages|] == m
    ensures ToVec(e').Frame?
  {
    e.(messages := e.messages + [m])
  }

  function PrefixWrites(prefix: Option<string>): seq<Write>
  {
    match prefix
    case None => []
    case Some(name) => [WriteString(name)]
  }

  function MessageWrites(ms: seq<Message>): (ws: seq<Write>)
    ensures |ws| == |ms|
    ensures forall i :: 0 <= i < |ms| ==> ws[i] == WriteMessage(ms[i])
  {
    seq(|ms|, i requires 0 <= i < |ms| => WriteMessage(ms[i]))
  }

  /** `EncoderWrapper::to_vec`, identical for V1 and V2: an empty batch
      encodes to zero bytes (not even the prefix); otherwise the prefix, if
      any, is written first and then every message in push order. */
  function ToVec(e: EncoderWrapper): (w: Wire)
    ensures w.NoBytes? <==> e.messages == []
    ensures w.Frame? ==> w.version == e.version
  {
    if e.messages == [] then NoBytes
    else Frame(e.version, PrefixWrites(e.prefix) + MessageWrites(e.messages))
  }

  /** Reads a run of message writes back; a string write where a message is
      expected is a framing error. */
  function ReadMessages(ws: seq<Write>): Option<seq<Message>>
  {
    if ws == [] then Some([])
    else match ws[0]
      case WriteString(_) => None
      case WriteMessage(m) =>
        match ReadMessages(ws[1..])
        case None => None
        case Some(rest) => Some([m] + rest)
  }

  /** Reference decoder for encoded batches: reads the name first when a
      prefix is expected (a missing name is a header error), then the
      messages. Zero bytes read back as an empty batch only for V1 without
      a prefix: the V2 decoder reads a header before anything else, so it
      rejects an empty buffer. */
  function ReadWire(w: Wire, version: ProtocolVersion, namePrefix: bool): Option<(Option<string>, seq<Message>)>
  {
    match w
    case NoBytes => if namePrefix || version == V2 then None else Some((None, []))
    case Frame(v, ws) =>
      if v != version then None
      else if !namePrefix then
        match ReadMessages(ws)
        case None => None
        case Some(ms) => Some((None, ms))
      else if |ws| > 0 && ws[0].WriteString? then
        match ReadMessages(ws[1..])
        case None => None
        case Some(ms) => Some((Some(ws[0].s), ms))
      else None
  }

  lemma {:induction false} ReadMessageWrites(ms: seq<Message>)
    ensures ReadMessages(MessageWrites(ms)) == Some(ms)
  {
    if ms != [] {
      var ws := MessageWrites(ms);
      assert ws[1..] == MessageWrites(ms[1..]);
      ReadMessageWrites(ms[1..]);
      assert ms == [ms[0]] + ms[1..];
    }
  }

  /** Round trip of the batching encoder, for both versions: decoding with
      the same version and the same prefix expectation gives back the name
      and every pushed message in push order. An empty batch is zero bytes,
      which read back as an empty batch exactly for V1 without a name. */
  lemma EncodeDecodeRoundTrip(e: EncoderWrapper)
    ensures e.messages != [] ==>
              ReadWire(ToVec(e), e.version, e.prefix.Some?) == Some((e.prefix, e.messages))
    ensures e.messages == [] ==>
              (ReadWire(ToVec(e), e.version, e.prefix.Some?) == Some((None, [])) <==>
               e.version == V1 && e.prefix.None?)
  {
    if e.messages != [] {
      ReadMessageWrites(e.messages);
      if e.prefix.Some? {
        assert (PrefixWrites(e.prefix) + MessageWrites(e.messages))[1..] == MessageWrites(e.messages);
      } else {
        assert PrefixWrites(e.prefix) + MessageWrites(e.messages) == MessageWrites(e.messages);
      }
    }
  }

  /** Pushing appends: the encoded batch lists the messages in the order
      they were pushed, after the messages already present. */
  lemma PushOrder(e: EncoderWrapper, m: Message)
    ensures ReadWire(ToVec(Push(e, m)), e.version, e.prefix.Some?) == Some((e.prefix, e.messages + [m]))
  {
    EncodeDecodeRoundTrip(Push(e, m));
  }

  // ----- decoder header stage -----

  /** A lib0 decoder positioned in an input buffer (external). */
  type DecoderState

  /** `lib0::error::Error` (external). */
  type DecodeError

  /** The external reading capabilities: opening a V1 decoder (which cannot
      fail), opening a V2 decoder (which reads a header and can fail),
      reading one length-prefixed string, and draining the message reader
      into its finite sequence of per-message results. */
  datatype WireReader = WireReader(
    openV1: Bytes -> DecoderState,
    openV2: Bytes -> Result<DecoderState, DecodeError>,
    readString: DecoderState -> Result<(string, DecoderState), DecodeError>,
    readMessages: DecoderState -> seq<Result<Message, DecodeError>>)

  /** `DecoderWrapper` after its header stage. */
  datatype DecoderWrapper = DecoderWrapper(documentName: Option<string>, state: DecoderState)

  /** The messages the wrapper yields when iterated, each decoded or failed
      on its own. */
  function Items(rd: WireReader, d: DecoderWrapper): seq<Result<Message, DecodeError>>
  {
    rd.readMessages(d.state)
  }

  /** `DecoderWrapper::new`: opens the version's decoder and, when a name
      prefix is expected, reads the document name; message reading resumes
      right after the name. Only those two steps can fail; they are the
      header errors. */
  function NewDecoder(rd: WireReader, version: ProtocolVersion, bytes: Bytes, namePrefix: bool)
    : (r: Result<DecoderWrapper, DecodeError>)
    ensures r.Ok? ==> (r.value.documentName.Some? <==> namePrefix)
    ensures version == V1 && !namePrefix ==> r.Ok?
    ensures r.Err? <==>
              (version == V2 && rd.openV2(bytes).Err?) ||
              (namePrefix &&
               rd.readString(if version == V1 then rd.openV1(bytes) else rd.openV2(bytes).value).Err?)
    ensures r.Ok? ==>
              var st0 := if version == V1 then rd.openV1(bytes) else rd.openV2(bytes).value;
              && r.value.state == (if namePrefix then rd.readString(st0).value.1 else st0)
              && (namePrefix ==> r.value.documentName == Some(rd.readString(st0).value.0))
  {
    var st0 :=
      match version
      case V1 => Ok(rd.openV1(bytes))
      case V2 => rd.openV2(bytes);
    match st0
    case Err(e) => Err(e)
    case Ok(st) =>
      if namePrefix then
        (match rd.readString(st)
         case Err(e) => Err(e)
         case Ok((name, rest)) => Ok(DecoderWrapper(Some(name), rest)))
      else Ok(DecoderWrapper(None, st))
  }
}

=== FILE: engine.dfy ===
/** The external collaborators of a room: the CRDT document engine and
    the presence (awareness) store.

    The document and its decoded updates are abstract, and every document
    operation is an uninterpreted function supplied in a `DocEngine`
    value. The presence store keeps its client states and meta clocks
    concretely, because the room's disconnect cleanup is stated in terms of
    them; computing and applying presence diffs is again supplied by the
    engine. */
module Engine {
  import opened Wrappers
  import opened Protocol

  /** A CRDT document replica (external). */
  type Doc

  /** A decoded document update (external). */
  type DocUpdate

  /** The presence store: each client's state (a JSON string) and the
      client's meta clock. */
  datatype Presence = Presence(states: map<ClientId, string>, clocks: map<ClientId, U32>)

  /** A fresh store holds no client state. */
  const EmptyPresence: Presence := Presence(map[], map[])

  /** The effect of applying one presence diff: the resulting store and the
      client ids the store reports as added and as removed by that apply. */
  datatype PresenceChange = PresenceChange(after: Presence, added: set<ClientId>, removed: set<ClientId>)

  /** The uninterpreted operations of the document engine and the presence
      store. `encodeDiff`, `decodeUpdate` and `encodeStateAsUpdate` take the
      wire version that selects the V1 or V2 codec. `encodePresence` is the
      full presence diff, which the store may fail to produce. */
  datatype DocEngine = DocEngine(
    emptyDoc: Doc,
    stateVector: Doc -> StateVector,
    encodeDiff: (Doc, StateVector, ProtocolVersion) -> Bytes,
    decodeUpdate: (Bytes, ProtocolVersion) -> Option<DocUpdate>,
    applyUpdate: (Doc, DocUpdate) -> Doc,
    encodeStateAsUpdate: (Doc, ProtocolVersion) -> Bytes,
    encodePresence: Presence -> Option<AwarenessUpdate>,
    applyPresence: (Presence, AwarenessUpdate) -> PresenceChange)

  /** The meta clock after a removal: advanced by one, or started at 1. The
      store's clock is a `u32` advanced without an overflow check, so the
      largest clock wraps to 0 (as in a release build). */
  function BumpedClock(clocks: map<ClientId, U32>, c: ClientId): U32
  {
    if c in clocks then (clocks[c] as int + 1) % 0x1_0000_0000 else 1
  }

  /** The store's `remove_state`: drops the client's state and advances its
      meta clock. */
  function RemoveState(p: Presence, c: ClientId): (q: Presence)
    ensures q.states.Keys == p.states.Keys - {c}
    ensures forall d :: d in q.states ==> q.states[d] == p.states[d]
    ensures q.clocks.Keys == p.clocks.Keys + {c}
    ensures c !in p.clocks ==> q.clocks[c] == 1
    ensures c in p.clocks && p.clocks[c] < 0xFFFF_FFFF ==> q.clocks[c] == p.clocks[c] + 1
    ensures c in p.clocks && p.clocks[c] == 0xFFFF_FFFF ==> q.clocks[c] == 0
    ensures forall d :: d in p.clocks && d != c ==> q.clocks[d] == p.clocks[d]
  {
    Presence(p.states - {c}, p.clocks[c := BumpedClock(p.clocks, c)])
  }

  /** Reference for removing a whole set of clients at once; the result
      does not depend on the order of the removals. */
  function RemoveStates(p: Presence, ids: set<ClientId>): (q: Presence)
    ensures q.states.Keys == p.states.Keys - ids
    ensures forall d :: d in q.states ==> q.states[d] == p.states[d]
    ensures q.clocks.Keys == p.clocks.Keys + ids
    ensures forall d :: d in ids ==> q.clocks[d] == BumpedClock(p.clocks, d)
    ensures forall d :: d in p.clocks && d !in ids ==> q.clocks[d] == p.clocks[d]
  {
    Presence(
      p.states - ids,
      map c | c in p.clocks.Keys + ids :: if c in ids then BumpedClock(p.clocks, c) else p.clocks[c])
  }

  /** Removing one more client extends the set removed so far. */
  lemma RemoveStatesStep(p: Presence, done: set<ClientId>, c: ClientId)
    requires c !in done
    ensures RemoveState(RemoveStates(p, done), c) == RemoveStates(p, done + {c})
  {
    var lhs := RemoveState(RemoveStates(p, done), c);
    var rhs := RemoveStates(p, done + {c});
    assert lhs.states == rhs.states;
    assert lhs.clocks == rhs.clocks;
  }
}

=== FILE: manager.dfy ===
/** `YRoomManager`: the registry from room name to room, creating rooms
    lazily with settings resolved from its prefix table, and the public
    operations that route a connection's traffic to its room. */
module RoomManager {
  import opened Wrappers
  import opened Protocol
  import opened Settings
  import opened Codec
  import opened Engine
  import opened YRoom

  datatype Manager = Manager(
    rooms: map<string, Room>,
    defaultSettings: RoomSettings,
    roomSettings: SettingsTable)

  /** `find_settings` on the manager's own configuration. */
  function Resolve(m: Manager, room: string): RoomSettings
  {
    FindSettings(m.roomSettings, m.defaultSettings, room)
  }

  /** Every room keeps the settings resolved for its name when it was
      created; the configuration itself never changes. */
  ghost predicate Valid(m: Manager)
  {
    forall name :: name in m.rooms ==> m.rooms[name].settings == Resolve(m, name)
  }

  /** `new_with_default`: no rooms, and every name resolves to
      `YRoomSettings::default`. */
  function NewWithDefault(): (m: Manager)
    ensures m.rooms == map[]
    ensures forall room :: Resolve(m, room) == DefaultSettings
  {
    Manager(map[], DefaultSettings, [])
  }

  /** `new_with_settings`, over the configuration mapping once its values
      have been read: the "default" entry (or `YRoomSettings::default`)
      becomes the fallback and every other entry a prefix, in the mapping's
      order. */
  function NewWithSettings(entries: SettingsTable): (m: Manager)
    requires DistinctKeys(entries)
    ensures m.rooms == map[]
    ensures forall room, i :: IsFirstPrefixMatch(entries, room, i) ==> Resolve(m, room) == entries[i].1
    ensures forall room ::
              (forall j :: 0 <= j < |entries| && entries[j].0 != DefaultKey ==> !StartsWith(room, entries[j].0)) ==>
              Resolve(m, room) == DefaultEntry(entries)
  {
    var m := Manager(map[], DefaultEntry(entries), PrefixEntries(entries));
    assert forall room, i :: IsFirstPrefixMatch(entries, room, i) ==> Resolve(m, room) == entries[i].1 by {
      forall room, i | IsFirstPrefixMatch(entries, room, i) ensures Resolve(m, room) == entries[i].1 {
        PrefixEntriesResolve(entries, m.defaultSettings, room, i);
      }
    }
    assert forall room ::
             (forall j :: 0 <= j < |entries| && entries[j].0 != DefaultKey ==> !StartsWith(room, entries[j].0)) ==>
             Resolve(m, room) == DefaultEntry(entries) by {
      forall room ensures
        (forall j :: 0 <= j < |entries| && entries[j].0 != DefaultKey ==> !StartsWith(room, entries[j].0)) ==>
        Resolve(m, room) == DefaultEntry(entries)
      {
        PrefixEntriesNoMatch(entries, room);
      }
    }
    m
  }

  /** The operation changed at most the named room: it exists afterwards,
      no other room was added, removed or changed, the configuration is
      the same, and the named room has the settings it was created with. */
  ghost predicate TouchesOnly(m: Manager, m': Manager, room: string)
  {
    && m'.defaultSettings == m.defaultSettings
    && m'.roomSettings == m.roomSettings
    && m'.rooms.Keys == m.rooms.Keys + {room}
    && (forall other :: other in m.rooms && other != room ==> m'.rooms[other] == m.rooms[other])
    && (room in m.rooms ==> m'.rooms[room].settings == m.rooms[room].settings)
    && (room !in m.rooms ==> m'.rooms[room].settings == Resolve(m, room))
  }

  lemma TouchesOnlyKeepsValid(m: Manager, m': Manager, room: string)
    requires Valid(m) && TouchesOnly(m, m', room)
    ensures Valid(m')
  {
    forall name | name in m'.rooms ensures m'.rooms[name].settings == Resolve(m', name) {
      if name != room {
        assert name in m.rooms;
      }
    }
  }

  /** The registry entry for `room`, created with the resolved settings and
      the optional seed only when the name is unknown. */
  function Ensure(eng: DocEngine, m: Manager, room: string, seed: Option<Bytes>): (m': Manager)
    ensures room in m'.rooms
    ensures room in m.rooms ==> m' == m
    ensures room !in m.rooms ==> m'.rooms == m.rooms[room := NewRoom(eng, Resolve(m, room), seed)]
    ensures TouchesOnly(m, m', room)
  {
    if room in m.rooms then m
    else m.(rooms := m.rooms[room := NewRoom(eng, Resolve(m, room), seed)])
  }

  /** `get_room`. */
  function GetRoom(eng: DocEngine, m: Manager, room: string): (m': Manager)
    ensures room in m'.rooms
    ensures room in m.rooms ==> m' == m
    ensures room !in m.rooms ==> m'.rooms[room] == NewRoom(eng, Resolve(m, room), None)
    ensures TouchesOnly(m, m', room)
  {
    Ensure(eng, m, room, None)
  }

  /** `get_room_with_data`: the seed is used only for a new room. */
  function GetRoomWithData(eng: DocEngine, m: Manager, room: string, data: Bytes): (m': Manager)
    ensures room in m'.rooms
    ensures room in m.rooms ==> m' == m
    ensures room !in m.rooms ==> m'.rooms[room] == NewRoom(eng, Resolve(m, room), Some(data))
    ensures TouchesOnly(m, m', room)
  {
    Ensure(eng, m, room, Some(data))
  }

  /** Replaces the (existing) room `room` by `r`. */
  function Store(m: Manager, room: string, r: Room): Manager
  {
    m.(rooms := m.rooms[room := r])
  }

  /** `YRoomManager::connect`. */
  function Connect(eng: DocEngine, m: Manager, room: string, conn: ConnId): (res: (Manager, RoomMessage))
    ensures TouchesOnly(m, res.0, room)
    ensures conn in res.0.rooms[room].connections
    ensures res.1.broadcast == NoBytes
    ensures var step := YRoom.Connect(eng, GetRoom(eng, m, room).rooms[room], conn);
            res.0.rooms[room] == step.0 && res.1 == step.1
  {
    var m1 := GetRoom(eng, m, room);
    var (r, msg) := YRoom.Connect(eng, m1.rooms[room], conn);
    (Store(m1, room, r), msg)
  }

  /** `YRoomManager::connect_with_data`. */
  function ConnectWithData(eng: DocEngine, m: Manager, room: string, conn: ConnId, data: Bytes)
    : (res: (Manager, RoomMessage))
    ensures TouchesOnly(m, res.0, room)
    ensures conn in res.0.rooms[room].connections
    ensures res.1.broadcast == NoBytes
    ensures room !in m.rooms ==> res.0.rooms[room].doc == NewRoom(eng, Resolve(m, room), Some(data)).doc
    ensures room in m.rooms ==> res == Connect(eng, m, room, conn)
    ensures var step := YRoom.Connect(eng, GetRoomWithData(eng, m, room, data).rooms[room], conn);
            res.0.rooms[room] == step.0 && res.1 == step.1
  {
    var m1 := GetRoomWithData(eng, m, room, data);
    var (r, msg) := YRoom.Connect(eng, m1.rooms[room], conn);
    (Store(m1, room, r), msg)
  }

  /** `YRoomManager::handle_message`: the room is created first if unknown,
      even when the payload's header then fails to decode. */
  function HandleMessage(eng: DocEngine, rd: WireReader, m: Manager, room: string, conn: ConnId, payload: Bytes)
    : (res: (Manager, RoomMessage))
    ensures TouchesOnly(m, res.0, room)
    ensures var r := GetRoom(eng, m, room).rooms[room];
            && res.0.rooms[room] == YRoom.HandleMessage(eng, rd, r, conn, payload).0
            && res.1 == YRoom.HandleMessage(eng, rd, r, conn, payload).1
            && OthersUnchanged(r.connections, res.0.rooms[room].connections, conn)
            && (NewDecoder(rd, r.settings.protocolVersion, payload, r.settings.namePrefix).Err? ==>
                  res.0 == GetRoom(eng, m, room) && res.1 == Silent)
  {
    var m1 := GetRoom(eng, m, room);
    var (r, msg) := YRoom.HandleMessage(eng, rd, m1.rooms[room], conn, payload);
    (Store(m1, room, r), msg)
  }

  /** `YRoomManager::disconnect`: never a private reply; the broadcast is
      the room's presence update. An unknown room is created and then
      disconnected from. */
  function Disconnect(eng: DocEngine, m: Manager, room: string, conn: ConnId): (res: (Manager, RoomMessage))
    ensures TouchesOnly(m, res.0, room)
    ensures res.1.payload == NoBytes
    ensures conn !in res.0.rooms[room].connections
    ensures room in m.rooms ==>
              res.0.rooms[room].connections == m.rooms[room].connections - {conn}
    ensures var step := YRoom.Disconnect(eng, GetRoom(eng, m, room).rooms[room], conn);
            res.0.rooms[room] == step.0 && res.1.broadcast == step.1
  {
    var m1 := GetRoom(eng, m, room);
    var (r, broadcast) := YRoom.Disconnect(eng, m1.rooms[room], conn);
    (Store(m1, room, r), RoomMessage(NoBytes, broadcast))
  }

  /** `has_room`: a room is known from its first lookup until it is
      removed, whether or not anyone is connected. */
  function HasRoom(m: Manager, room: string): (present: bool)
    ensures present <==> room in m.rooms
    ensures IsRoomAlive(m, room) ==> present
  {
    room in m.rooms
  }

  /** `is_room_alive`: false for an unknown room. */
  function IsRoomAlive(m: Manager, room: string): (alive: bool)
    ensures alive <==> room in m.rooms && m.rooms[room].connections != map[]
  {
    if room in m.rooms then IsAlive(m.rooms[room]) else false
  }

  /** `serialize_room` with `YRoom::serialize`: absent for an unknown room,
      otherwise the room's full document state as an update against the
      empty state vector, encoded in the room's version. */
  function SerializeRoom(eng: DocEngine, m: Manager, room: string): (snapshot: Option<Bytes>)
    ensures snapshot.None? <==> room !in m.rooms
    ensures snapshot.Some? ==> snapshot.value == eng.encodeStateAsUpdate(m.rooms[room].doc, m.rooms[room].settings.protocolVersion)
  {
    if room in m.rooms then
      Some(eng.encodeStateAsUpdate(m.rooms[room].doc, m.rooms[room].settings.protocolVersion))
    else None
  }

  /** `remove_room`: forgets the room; nothing else changes. */
  function RemoveRoom(m: Manager, room: string): (m': Manager)
    ensures !HasRoom(m', room)
    ensures m'.rooms.Keys == m.rooms.Keys - {room}
    ensures forall other :: other in m'.rooms ==> m'.rooms[other] == m.rooms[other]
    ensures m'.defaultSettings == m.defaultSettings && m'.roomSettings == m.roomSettings
  {
    m.(rooms := m.rooms - {room})
  }

  /** `list_rooms`, as a set (the source's order is hash-map order). */
  function ListRooms(m: Manager): (names: set<string>)
    ensures forall name :: name in names <==> HasRoom(m, name)
  {
    m.rooms.Keys
  }
}

=== FILE: manager_properties.dfy ===
/** Properties of the room registry: lazy creation is idempotent, removal
    undoes creation, every public operation keeps each room's settings
    consistent with the configuration, and the end-to-end scenarios of the
    repository's tests. */
module ManagerProperties {
  import opened Wrappers
  import opened Protocol
  import opened Settings
  import opened Codec
  import opened Engine
  import YRoom
  import opened RoomManager

  /** Looking a room up twice creates it at most once, and a seed offered for
      a room that already exists is ignored. */
  lemma GetRoomIdempotent(eng: DocEngine, m: Manager, room: string, data: Bytes)
    ensures GetRoom(eng, GetRoom(eng, m, room), room) == GetRoom(eng, m, room)
    ensures GetRoomWithData(eng, GetRoom(eng, m, room), room, data) == GetRoom(eng, m, room)
    ensures room in m.rooms ==> GetRoomWithData(eng, m, room, data) == GetRoom(eng, m, room)
  {
  }

  /** Removing a room that a lookup has just created gives back the
      registry as it was before the lookup. */
  lemma RemoveAfterCreate(eng: DocEngine, m: Manager, room: string)
    requires room !in m.rooms
    ensures RemoveRoom(GetRoom(eng, m, room), room) == m
  {
    var m' := RemoveRoom(GetRoom(eng, m, room), room);
    assert m'.rooms.Keys == m.rooms.Keys;
    assert m'.rooms == m.rooms;
  }

  /** Every operation of the registry keeps each room on the settings its
      name resolves to. */
  lemma OperationsKeepValid(eng: DocEngine, rd: WireReader, m: Manager, room: string, conn: ConnId, data: Bytes, payload: Bytes)
    requires Valid(m)
    ensures Valid(GetRoom(eng, m, room))
    ensures Valid(GetRoomWithData(eng, m, room, data))
    ensures Valid(Connect(eng, m, room, conn).0)
    ensures Valid(ConnectWithData(eng, m, room, conn, data).0)
    ensures Valid(HandleMessage(eng, rd, m, room, conn, payload).0)
    ensures Valid(Disconnect(eng, m, room, conn).0)
    ensures Valid(RemoveRoom(m, room))
  {
    TouchesOnlyKeepsValid(m, GetRoom(eng, m, room), room);
    TouchesOnlyKeepsValid(m, GetRoomWithData(eng, m, room, data), room);
    TouchesOnlyKeepsValid(m, Connect(eng, m, room, conn).0, room);
    TouchesOnlyKeepsValid(m, ConnectWithData(eng, m, room, conn, data).0, room);
    TouchesOnlyKeepsValid(m, HandleMessage(eng, rd, m, room, conn, payload).0, room);
    TouchesOnlyKeepsValid(m, Disconnect(eng, m, room, conn).0, room);
  }

  /** A fresh registry is valid. */
  lemma FreshRegistryValid(entries: SettingsTable)
    requires DistinctKeys(entries)
    ensures Valid(NewWithDefault())
    ensures Valid(NewWithSettings(entries))
  {
  }

  /** The snapshot follows the document only: connecting and disconnecting
      never change what a room serializes to, a message whose header fails
      leaves it unchanged, and no operation on one room changes another
      room's snapshot. */
  lemma SnapshotFollowsDocument(eng: DocEngine, rd: WireReader, m: Manager, room: string, other: string,
                                conn: ConnId, payload: Bytes, data: Bytes)
    requires other != room
    ensures SerializeRoom(eng, Connect(eng, m, room, conn).0, room) == SerializeRoom(eng, GetRoom(eng, m, room), room)
    ensures SerializeRoom(eng, Disconnect(eng, m, room, conn).0, room) == SerializeRoom(eng, GetRoom(eng, m, room), room)
    ensures var r := GetRoom(eng, m, room).rooms[room];
            NewDecoder(rd, r.settings.protocolVersion, payload, r.settings.namePrefix).Err? ==>
              SerializeRoom(eng, HandleMessage(eng, rd, m, room, conn, payload).0, room) == SerializeRoom(eng, GetRoom(eng, m, room), room)
    ensures SerializeRoom(eng, HandleMessage(eng, rd, m, room, conn, payload).0, other) == SerializeRoom(eng, m, other)
    ensures SerializeRoom(eng, Connect(eng, m, room, conn).0, other) == SerializeRoom(eng, m, other)
    ensures SerializeRoom(eng, Disconnect(eng, m, room, conn).0, other) == SerializeRoom(eng, m, other)
    ensures SerializeRoom(eng, ConnectWithData(eng, m, room, conn, data).0, other) == SerializeRoom(eng, m, other)
    ensures SerializeRoom(eng, GetRoom(eng, m, room), other) == SerializeRoom(eng, m, other)
    ensures SerializeRoom(eng, GetRoomWithData(eng, m, room, data), other) == SerializeRoom(eng, m, other)
    ensures SerializeRoom(eng, RemoveRoom(m, room), other) == SerializeRoom(eng, m, other)
  {
  }

  /** Connecting to a room with the default settings: the handshake is a
      non-empty reply, nothing is broadcast, and the room is listed and
      alive until it is removed. */
  lemma ConnectScenario(eng: DocEngine)
    ensures
      var (m1, msg) := Connect(eng, NewWithDefault(), "test", 1);
      var m2 := RemoveRoom(m1, "test");
      && msg.payload != NoBytes
      && msg.broadcast == NoBytes
      && HasRoom(m1, "test")
      && IsRoomAlive(m1, "test")
      && ListRooms(m1) == {"test"}
      && !HasRoom(m2, "test")
      && ListRooms(m2) == {}
  {
    var m0 := NewWithDefault();
    var m1 := GetRoom(eng, m0, "test");
    assert Resolve(m0, "test") == DefaultSettings;
    var r := m1.rooms["test"];
    assert r.settings.serverStartSync;
    var w := YRoom.Connect(eng, r, 1).1.payload;
    assert YRoom.IsHandshake(eng, r, w);
    assert w != NoBytes;
    assert Connect(eng, m0, "test", 1).0.rooms.Keys == {"test"};
  }

  /** Connecting with a seed: the handshake is non-empty, nothing is
      broadcast, and a seed the engine decodes and re-encodes unchanged is
      what the room serializes to. */
  lemma ConnectWithDataScenario(eng: DocEngine, data: Bytes)
    ensures
      var (m1, msg) := ConnectWithData(eng, NewWithDefault(), "test", 1, data);
      && msg.payload != NoBytes
      && msg.broadcast == NoBytes
      && (eng.decodeUpdate(data, V1).Some? &&
          eng.encodeStateAsUpdate(eng.applyUpdate(eng.emptyDoc, eng.decodeUpdate(data, V1).value), V1) == data
          ==> SerializeRoom(eng, m1, "test") == Some(data))
  {
    var m0 := NewWithDefault();
    var m1 := GetRoomWithData(eng, m0, "test", data);
    assert Resolve(m0, "test") == DefaultSettings;
    var r := m1.rooms["test"];
    assert r.settings == DefaultSettings;
    var w := YRoom.Connect(eng, r, 1).1.payload;
    assert YRoom.IsHandshake(eng, r, w);
    assert w != NoBytes;
    YRoom.SeedDecodedAsV1(eng, DefaultSettings, data);
  }

  /** Connecting and disconnecting: the disconnect sends no reply, broadcasts
      the presence snapshot whenever the store can encode it, and leaves
      the room listed but no longer alive. */
  lemma DisconnectScenario(eng: DocEngine)
    ensures
      var m1 := Connect(eng, NewWithDefault(), "test", 1).0;
      var (m2, msg) := Disconnect(eng, m1, "test", 1);
      var m3 := RemoveRoom(m2, "test");
      && HasRoom(m1, "test") && IsRoomAlive(m1, "test")
      && msg.payload == NoBytes
      && (eng.encodePresence(m2.rooms["test"].presence).Some? ==> msg.broadcast != NoBytes)
      && !IsRoomAlive(m2, "test")
      && ListRooms(m2) == {"test"}
      && !HasRoom(m3, "test") && ListRooms(m3) == {}
  {
    var m0 := NewWithDefault();
    var m1 := Connect(eng, m0, "test", 1).0;
    assert m1.rooms.Keys == {"test"};
    assert m1.rooms["test"].connections.Keys == {1};
    var m2 := Disconnect(eng, m1, "test", 1).0;
    assert m2.rooms["test"].connections == map[];
  }

  /** Two connections to one room: it stays alive until the second one
      leaves. */
  lemma ConnectMultipleScenario(eng: DocEngine)
    ensures
      var m1 := Connect(eng, Connect(eng, NewWithDefault(), "test", 1).0, "test", 2).0;
      var m2 := Disconnect(eng, m1, "test", 1).0;
      var m3 := Disconnect(eng, m2, "test", 2).0;
      IsRoomAlive(m1, "test") && IsRoomAlive(m2, "test") && !IsRoomAlive(m3, "test")
  {
    var m1 := Connect(eng, Connect(eng, NewWithDefault(), "test", 1).0, "test", 2).0;
    assert m1.rooms["test"].connections.Keys == {1, 2};
    var m2 := Disconnect(eng, m1, "test", 1).0;
    assert m2.rooms["test"].connections.Keys == {2};
    var m3 := Disconnect(eng, m2, "test", 2).0;
    assert m3.rooms["test"].connections == map[];
  }
}

=== FILE: protocol.dfy ===
/** Scalar types, the wire-format version and the sync-protocol messages
    the room engine exchanges with its clients. The byte-level grammar of
    the messages belongs to the external protocol library; only their
    structure is modelled here. */
module Protocol {
  import opened Wrappers

  /** Rust `u8`. */
  type U8 = x: int | 0 <= x < 0x100

  /** Rust `u64`: connection ids and presence client ids. */
  type U64 = x: int | 0 <= x < 0x1_0000_0000_0000_0000

  /** The width of CRDT and awareness clocks. */
  type U32 = x: int | 0 <= x < 0x1_0000_0000

  type Bytes = seq<U8>

  type ConnId = U64

  type ClientId = U64

  /** The two mutually incompatible binary encodings. */
  datatype ProtocolVersion = V1 | V2

  /** The configuration number of a version (inverse of `VersionFromByte`). */
  function VersionByte(v: ProtocolVersion): U8
  {
    match v
    case V1 => 1
    case V2 => 2
  }

  /** `From<u8> for ProtocolVersion`: only 1 and 2 are accepted; any other
      value makes the source panic, so it is excluded by the precondition. */
  function VersionFromByte(version: U8): (v: ProtocolVersion)
    requires version == 1 || version == 2
    ensures VersionByte(v) == version
  {
    if version == 1 then V1 else V2
  }

  /** Both directions of the correspondence between configuration numbers
      and versions. */
  lemma VersionByteRoundTrip(v: ProtocolVersion, b: U8)
    ensures VersionFromByte(VersionByte(v)) == v
    ensures (b == 1 || b == 2) ==> VersionByte(VersionFromByte(b)) == b
    ensures VersionByte(v) == 1 || VersionByte(v) == 2
  {
  }

  /** A document state vector: for each client, the clock its history has
      been seen up to. */
  datatype StateVector = StateVector(clocks: map<ClientId, U32>)

  /** One client's entry in a presence diff; a `json` of "null" marks a
      removed client. */
  datatype AwarenessEntry = AwarenessEntry(clock: U32, json: string)

  /** A presence (awareness) diff. */
  datatype AwarenessUpdate = AwarenessUpdate(clients: map<ClientId, AwarenessEntry>)

  datatype SyncMessage =
    | SyncStep1(sv: StateVector)
    | SyncStep2(data: Bytes)
    | Update(data: Bytes)

  /** The message kinds carried by the sync protocol. `Auth` carries an
      optional denial reason; `None` means permission granted. */
  datatype Message =
    | Sync(sync: SyncMessage)
    | Auth(deniedReason: Option<string>)
    | AwarenessQuery
    | Awareness(update: AwarenessUpdate)
    | Custom(tag: U8, data: Bytes)
}

=== FILE: room.dfy ===
/** One room (`YRoom`): a document replica, a presence store, the live
    connection table mapping each connection to the presence client ids it
    introduced, and the fixed settings it was created with. Every operation
    is a pure transition returning the next room and its output. */
module YRoom {
  import opened Wrappers
  import opened Protocol
  import opened Settings
  import opened Codec
  import opened Engine

  datatype Room = Room(
    settings: RoomSettings,
    doc: Doc,
    presence: Presence,
    connections: map<ConnId, set<ClientId>>)

  /** `YRoomMessage`: the private reply to the sender and the payload to
      broadcast to every other connection of the room. */
  datatype RoomMessage = RoomMessage(payload: Wire, broadcast: Wire)

  /** Both payloads empty. */
  const Silent: RoomMessage := RoomMessage(NoBytes, NoBytes)

  /** One result of the message reader: a message or that message's error. */
  type Item = Result<Message, DecodeError>

  /** `YRoom::new`. The seed snapshot is decoded with the V1 codec whatever
      the room's version; a seed that does not decode is dropped (the source
      logs it) and the room starts with an empty document. */
  function NewRoom(eng: DocEngine, settings: RoomSettings, seed: Option<Bytes>): (r: Room)
    ensures r.settings == settings
    ensures r.connections == map[]
    ensures r.presence == EmptyPresence
    ensures seed.None? || eng.decodeUpdate(seed.value, V1).None? ==> r.doc == eng.emptyDoc
  {
    var doc :=
      match seed
      case None => eng.emptyDoc
      case Some(data) =>
        match eng.decodeUpdate(data, V1)
        case None => eng.emptyDoc
        case Some(u) => eng.applyUpdate(eng.emptyDoc, u);
    Room(settings, doc, EmptyPresence, map[])
  }

  /** The seed is decoded the same way in a V1 and in a V2 room: only the
      V1 decoding of the seed decides the initial document. */
  lemma SeedDecodedAsV1(eng: DocEngine, s: RoomSettings, seed: Bytes)
    ensures NewRoom(eng, s.(protocolVersion := V1), Some(seed)).doc
         == NewRoom(eng, s.(protocolVersion := V2), Some(seed)).doc
    ensures eng.decodeUpdate(seed, V1).Some? ==>
              NewRoom(eng, s, Some(seed)).doc == eng.applyUpdate(eng.emptyDoc, eng.decodeUpdate(seed, V1).value)
  {
  }

  /** `YRoom::is_alive`. */
  function IsAlive(r: Room): (alive: bool)
    ensures alive <==> exists c :: c in r.connections
  {
    |r.connections| > 0
  }

  /** The payload `w` is what encoding `ms` with the room's version and the
      given name produces: zero bytes for an empty list, otherwise a batch
      that decodes, with the matching prefix expectation, to the name and to
      `ms` in order. */
  ghost predicate Carries(w: Wire, version: ProtocolVersion, name: Option<string>, ms: seq<Message>)
  {
    if ms == [] then w == NoBytes
    else ReadWire(w, version, name.Some?) == Some((name, ms))
  }

  /** Encoding a list through `EncoderWrapper` carries it. */
  lemma EncodedCarries(e: EncoderWrapper)
    ensures Carries(ToVec(e), e.version, e.prefix, e.messages)
  {
    EncodeDecodeRoundTrip(e);
  }

  /** The handshake a connecting client receives: a batch without a name
      prefix holding `SyncStep1` with the document's own state vector,
      followed by one full presence snapshot exactly when the store has
      clients and can encode them. */
  ghost predicate IsHandshake(eng: DocEngine, r: Room, w: Wire)
  {
    var read := ReadWire(w, r.settings.protocolVersion, false);
    && read.Some?
    && read.value.0 == None
    && var ms := read.value.1;
    && 1 <= |ms| <= 2
    && ms[0] == Sync(SyncStep1(eng.stateVector(r.doc)))
    && (|ms| == 2 <==> r.presence.states != map[] && eng.encodePresence(r.presence).Some?)
    && (|ms| == 2 ==> ms[1] == Awareness(eng.encodePresence(r.presence).value))
  }

  /** `YRoom::connect`: registers the connection (keeping an existing owned
      set), and, when the room starts the sync itself, replies with the
      handshake. Nothing is broadcast and no name prefix is written. */
  function Connect(eng: DocEngine, r: Room, conn: ConnId): (res: (Room, RoomMessage))
    ensures res.0.settings == r.settings && res.0.doc == r.doc && res.0.presence == r.presence
    ensures res.0.connections.Keys == r.connections.Keys + {conn}
    ensures forall c :: c in r.connections ==> res.0.connections[c] == r.connections[c]
    ensures conn !in r.connections ==> res.0.connections[conn] == {}
    ensures res.1.broadcast == NoBytes
    ensures !r.settings.serverStartSync ==> res.1.payload == NoBytes
    ensures r.settings.serverStartSync ==> IsHandshake(eng, r, res.1.payload)
  {
    var conns := if conn in r.connections then r.connections else r.connections[conn := {}];
    var enc := NewEncoder(r.settings.protocolVersion, None);
    var enc :=
      if r.settings.serverStartSync then
        var withStep1 := Push(enc, Sync(SyncStep1(eng.stateVector(r.doc))));
        if r.presence.states != map[] && eng.encodePresence(r.presence).Some? then
          Push(withStep1, Awareness(eng.encodePresence(r.presence).value))
        else withStep1
      else enc;
    EncodeDecodeRoundTrip(enc);
    (r.(connections := conns), RoomMessage(ToVec(enc), NoBytes))
  }

  // ----- message dispatch -----

  /** The dispatch table: where the answer to an input goes. */
  datatype Route = ToReply | ToBroadcast | Dropped

  /** Reference classification of one reader result, independent of the
      room state. `Update` counts only when its payload decodes as V1;
      `SyncStep2`, `Custom` and per-message errors produce no output. */
  function RouteOf(eng: DocEngine, item: Item): Route
  {
    match item
    case Err(_) => Dropped
    case Ok(m) =>
      match m
      case Sync(SyncStep1(_)) => ToReply
      case Sync(SyncStep2(_)) => Dropped
      case Sync(Update(data)) => if eng.decodeUpdate(data, V1).Some? then ToBroadcast else Dropped
      case Auth(_) => ToReply
      case AwarenessQuery => ToReply
      case Awareness(_) => ToBroadcast
      case Custom(_, _) => Dropped
  }

  /** Messages the room may put in a private reply. */
  predicate ReplyShaped(m: Message)
  {
    (m.Sync? && m.sync.SyncStep2?) || m == Auth(None) || m.Awareness?
  }

  /** Messages the room may put in a broadcast. */
  predicate BroadcastShaped(m: Message)
  {
    (m.Sync? && m.sync.Update?) || m.Awareness?
  }

  /** Only `conn`'s entry may differ; the table may gain `conn` but no
      other key. */
  ghost predicate OthersUnchanged(before: map<ConnId, set<ClientId>>, after: map<ConnId, set<ClientId>>, conn: ConnId)
  {
    && after.Keys - {conn} == before.Keys - {conn}
    && (conn in before ==> conn in after)
    && forall c :: c in before && c != conn ==> c in after && after[c] == before[c]
  }

  /** The state threaded through a batch: the room and the two output lists. */
  datatype Dispatch = Dispatch(room: Room, reply: seq<Message>, broadcast: seq<Message>)

  /** The connection table after `conn`'s awareness apply: its entry is
      ensured to exist, then gains the added ids and loses the removed ones. */
  function OwnedAfter(conns: map<ConnId, set<ClientId>>, conn: ConnId, ch: PresenceChange)
    : (after: map<ConnId, set<ClientId>>)
    ensures after.Keys == conns.Keys + {conn}
    ensures forall c :: c in conns && c != conn ==> after[c] == conns[c]
    ensures forall id :: id in ch.removed ==> id !in after[conn]
    ensures forall id :: id in ch.added && id !in ch.removed ==> id in after[conn]
    ensures conn in conns ==> forall id :: id in conns[conn] && id !in ch.removed ==> id in after[conn]
    ensures forall id :: id in after[conn] ==> id in ch.added || (conn in conns && id in conns[conn])
  {
    var owned := if conn in conns then conns[conn] else {};
    conns[conn := (owned + ch.added) - ch.removed]
  }

  /** One step of the `for_each` in `YRoom::handle_message`. */
  function HandleItem(eng: DocEngine, st: Dispatch, conn: ConnId, item: Item): (st': Dispatch)
    ensures st'.room.settings == st.room.settings
    ensures RouteOf(eng, item) == Dropped ==> st'.reply == st.reply && st'.broadcast == st.broadcast
    ensures RouteOf(eng, item) == ToReply ==>
              st'.room == st.room && st'.broadcast == st.broadcast &&
              st.reply <= st'.reply && |st'.reply| <= |st.reply| + 1
    ensures RouteOf(eng, item) == ToBroadcast ==>
              st'.reply == st.reply && st.broadcast <= st'.broadcast && |st'.broadcast| <= |st.broadcast| + 1
    ensures st.reply <= st'.reply && st.broadcast <= st'.broadcast
    ensures forall i :: |st.reply| <= i < |st'.reply| ==> ReplyShaped(st'.reply[i])
    ensures forall i :: |st.broadcast| <= i < |st'.broadcast| ==> BroadcastShaped(st'.broadcast[i])
    ensures !(item.Ok? && item.value.Awareness?) ==>
              st'.room.connections == st.room.connections && st'.room.presence == st.room.presence
    ensures !(item.Ok? && item.value.Sync? && !item.value.sync.SyncStep1?) ==> st'.room.doc == st.room.doc
    ensures OthersUnchanged(st.room.connections, st'.room.connections, conn)
    // SyncStep1: the diff of the local document against the sender's vector
    ensures item.Ok? && item.value.Sync? && item.value.sync.SyncStep1? ==>
              st'.reply == st.reply + [Sync(SyncStep2(eng.encodeDiff(st.room.doc, item.value.sync.sv, st.room.settings.protocolVersion)))]
    // Auth: always granted
    ensures item.Ok? && item.value.Auth? ==> st'.reply == st.reply + [Auth(None)]
    // Update: echoed verbatim exactly when it decodes as V1
    ensures item.Ok? && item.value.Sync? && item.value.sync.Update? ==>
              (st'.broadcast == st.broadcast + [item.value] <==> eng.decodeUpdate(item.value.sync.data, V1).Some?)
    // SyncStep2: the diff is decoded with the room's own codec and applied
    ensures item.Ok? && item.value.Sync? && item.value.sync.SyncStep2? ==>
              st'.room.doc ==
                (match eng.decodeUpdate(item.value.sync.data, st.room.settings.protocolVersion)
                 case None => st.room.doc
                 case Some(u) => eng.applyUpdate(st.room.doc, u))
    // Update: decoded as V1 whatever the room's version, and applied
    ensures item.Ok? && item.value.Sync? && item.value.sync.Update? ==>
              st'.room.doc ==
                (match eng.decodeUpdate(item.value.sync.data, V1)
                 case None => st.room.doc
                 case Some(u) => eng.applyUpdate(st.room.doc, u))
    // AwarenessQuery: the full presence as it is, when the store can encode it
    ensures item.Ok? && item.value.AwarenessQuery? ==>
              st'.reply == st.reply +
                (if eng.encodePresence(st.room.presence).Some?
                 then [Awareness(eng.encodePresence(st.room.presence).value)] else [])
    // Awareness: the sender owns what this apply added and no longer what it
    // removed, and the full presence after the apply is broadcast
    ensures item.Ok? && item.value.Awareness? ==>
              var ch := eng.applyPresence(st.room.presence, item.value.update);
              && st'.room.presence == ch.after
              && conn in st'.room.connections
              && st'.room.connections[conn] ==
                 ((if conn in st.room.connections then st.room.connections[conn] else {}) + ch.added) - ch.removed
              && st'.broadcast == st.broadcast +
                   (if eng.encodePresence(ch.after).Some? then [Awareness(eng.encodePresence(ch.after).value)] else [])
  {
    var r := st.room;
    match item
    case Err(_) => st
    case Ok(m) =>
      match m
      case Sync(SyncStep1(sv)) =>
        st.(reply := st.reply + [Sync(SyncStep2(eng.encodeDiff(r.doc, sv, r.settings.protocolVersion)))])
      case Sync(SyncStep2(data)) =>
        (match eng.decodeUpdate(data, r.settings.protocolVersion)
         case None => st
         case Some(u) => st.(room := r.(doc := eng.applyUpdate(r.doc, u))))
      case Sync(Update(data)) =>
        (match eng.decodeUpdate(data, V1)
         case None => st
         case Some(u) => Dispatch(r.(doc := eng.applyUpdate(r.doc, u)), st.reply, st.broadcast + [m]))
      case Auth(_) => st.(reply := st.reply + [Auth(None)])
      case AwarenessQuery =>
        (match eng.encodePresence(r.presence)
         case None => st
         case Some(u) => st.(reply := st.reply + [Awareness(u)]))
      case Awareness(update) =>
        var ch := eng.applyPresence(r.presence, update);
        var r' := r.(presence := ch.after, connections := OwnedAfter(r.connections, conn, ch));
        (match eng.encodePresence(ch.after)
         case None => st.(room := r')
         case Some(u) => Dispatch(r', st.reply, st.broadcast + [Awareness(u)]))
      case Custom(_, _) => st
  }

  /** The whole batch, in reader order. */
  function HandleItems(eng: DocEngine, st: Dispatch, conn: ConnId, items: seq<Item>): (st': Dispatch)
    decreases |items|
    ensures st'.room.settings == st.room.settings
    ensures st.reply <= st'.reply && st.broadcast <= st'.broadcast
    ensures (forall i :: 0 <= i < |items| ==> RouteOf(eng, items[i]) != ToReply) ==> st'.reply == st.reply
    ensures (forall i :: 0 <= i < |items| ==> RouteOf(eng, items[i]) != ToBroadcast) ==> st'.broadcast == st.broadcast
    ensures |st'.reply| <= |st.reply| + |items| && |st'.broadcast| <= |st.broadcast| + |items|
    ensures forall i :: |st.reply| <= i < |st'.reply| ==> ReplyShaped(st'.reply[i])
    ensures forall i :: |st.broadcast| <= i < |st'.broadcast| ==> BroadcastShaped(st'.broadcast[i])
    ensures OthersUnchanged(st.room.connections, st'.room.connections, conn)
  {
    if items == [] then st
    else
      var next := HandleItem(eng, st, conn, items[0]);
      assert forall i :: 1 <= i < |items| ==> items[1..][i - 1] == items[i];
      HandleItems(eng, next, conn, items[1..])
  }

  /** `YRoom::handle_message`. A header error (the version's decoder cannot
      be opened or the expected name cannot be read) leaves the room as it
      was and answers with two empty payloads. Otherwise every reader result
      is dispatched in order; both payloads are written with the room's
      version and carry the decoded document name as prefix. */
  function HandleMessage(eng: DocEngine, rd: WireReader, r: Room, conn: ConnId, payload: Bytes)
    : (res: (Room, RoomMessage))
    ensures NewDecoder(rd, r.settings.protocolVersion, payload, r.settings.namePrefix).Err? ==> res == (r, Silent)
    ensures res.0.settings == r.settings
    ensures OthersUnchanged(r.connections, res.0.connections, conn)
    ensures var d := NewDecoder(rd, r.settings.protocolVersion, payload, r.settings.namePrefix);
            d.Ok? ==>
              var st := HandleItems(eng, Dispatch(r, [], []), conn, Items(rd, d.value));
              && res.0 == st.room
              && Carries(res.1.payload, r.settings.protocolVersion, d.value.documentName, st.reply)
              && Carries(res.1.broadcast, r.settings.protocolVersion, d.value.documentName, st.broadcast)
  {
    match NewDecoder(rd, r.settings.protocolVersion, payload, r.settings.namePrefix)
    case Err(_) => (r, Silent)
    case Ok(d) =>
      var st := HandleItems(eng, Dispatch(r, [], []), conn, Items(rd, d));
      var replies := EncoderWrapper(r.settings.protocolVersion, st.reply, d.documentName);
      var updates := EncoderWrapper(r.settings.protocolVersion, st.broadcast, d.documentName);
      EncodedCarries(replies);
      EncodedCarries(updates);
      (st.room, RoomMessage(ToVec(replies), ToVec(updates)))
  }

  /** The `for_each` over the disconnecting connection's client ids in
      `YRoom::disconnect`, one `remove_state` per id in whatever order the
      set yields them; the outcome is the order-independent reference. */
  method RemoveOwnedStates(p: Presence, owned: set<ClientId>) returns (q: Presence)
    ensures q == RemoveStates(p, owned)
    ensures forall c :: c in owned ==> c !in q.states
  {
    q := p;
    var rest := owned;
    assert RemoveStates(p, {}) == p by {
      assert RemoveStates(p, {}).clocks == p.clocks;
    }
    while rest != {}
      invariant rest <= owned
      invariant q == RemoveStates(p, owned - rest)
      decreases rest
    {
      var c :| c in rest;
      RemoveStatesStep(p, owned - rest, c);
      assert (owned - rest) + {c} == owned - (rest - {c});
      q := RemoveState(q, c);
      rest := rest - {c};
    }
  }

  /** `YRoom::disconnect`: every client id the connection owns is removed
      from the presence store and its entry is dropped; the result is a
      broadcast, without a name prefix, of the presence after the removal. */
  function Disconnect(eng: DocEngine, r: Room, conn: ConnId): (res: (Room, Wire))
    ensures res.0.settings == r.settings && res.0.doc == r.doc
    ensures res.0.connections == r.connections - {conn}
    ensures conn in r.connections ==>
              res.0.presence.states.Keys == r.presence.states.Keys - r.connections[conn]
    ensures conn !in r.connections ==> res.0.presence == r.presence
    ensures conn in r.connections ==> res.0.presence == RemoveStates(r.presence, r.connections[conn])
    ensures forall c :: c in res.0.presence.states ==> res.0.presence.states[c] == r.presence.states[c]
    ensures eng.encodePresence(res.0.presence).None? ==> res.1 == NoBytes
    ensures eng.encodePresence(res.0.presence).Some? ==>
              ReadWire(res.1, r.settings.protocolVersion, false)
              == Some((None, [Awareness(eng.encodePresence(res.0.presence).value)]))
  {
    var p := if conn in r.connections then RemoveStates(r.presence, r.connections[conn]) else r.presence;
    var enc := NewEncoder(r.settings.protocolVersion, None);
    var enc :=
      if eng.encodePresence(p).Some? then Push(enc, Awareness(eng.encodePresence(p).value)) else enc;
    assert eng.encodePresence(p).Some? ==> enc.messages == [Awareness(eng.encodePresence(p).value)] && enc.prefix == None;
    EncodeDecodeRoundTrip(enc);
    (Room(r.settings, r.doc, p, r.connections - {conn}), ToVec(enc))
  }
}

=== FILE: room_properties.dfy ===
/** Properties of the room's dispatch over whole batches, of the
    connection/presence bookkeeping, and of liveness. */
module RoomProperties {
  import opened Wrappers
  import opened Protocol
  import opened Engine
  import opened YRoom

  /** Dispatching a batch in two parts is dispatching it whole: the room
      handles the reader's results strictly one after another. */
  lemma {:induction false} HandleItemsAppend(eng: DocEngine, st: Dispatch, conn: ConnId, a: seq<Item>, b: seq<Item>)
    ensures HandleItems(eng, st, conn, a + b) == HandleItems(eng, HandleItems(eng, st, conn, a), conn, b)
    decreases |a|
  {
    if a == [] {
      assert a + b == b;
    } else {
      assert (a + b)[0] == a[0];
      assert (a + b)[1..] == a[1..] + b;
      HandleItemsAppend(eng, HandleItem(eng, st, conn, a[0]), conn, a[1..], b);
    }
  }

  // ----- the update relay -----

  /** The payloads of the `Update` messages of a list, in order. */
  function UpdatePayloads(ms: seq<Message>): seq<Bytes>
  {
    if ms == [] then []
    else (if ms[0].Sync? && ms[0].sync.Update? then [ms[0].sync.data] else []) + UpdatePayloads(ms[1..])
  }

  lemma {:induction false} UpdatePayloadsAppend(a: seq<Message>, b: seq<Message>)
    ensures UpdatePayloads(a + b) == UpdatePayloads(a) + UpdatePayloads(b)
  {
    if a != [] {
      assert (a + b)[1..] == a[1..] + b;
      UpdatePayloadsAppend(a[1..], b);
    } else {
      assert a + b == b;
    }
  }

  /** Reference: the payloads of the batch's `Update` messages that decode
      as V1, in reader order. */
  function RelayedUpdates(eng: DocEngine, items: seq<Item>): seq<Bytes>
  {
    if items == [] then []
    else
      var item := items[0];
      (if item.Ok? && item.value.Sync? && item.value.sync.Update? && eng.decodeUpdate(item.value.sync.data, V1).Some?
       then [item.value.sync.data] else [])
      + RelayedUpdates(eng, items[1..])
  }

  /** The broadcast relays exactly the decodable updates of the batch,
      verbatim and in order, whatever else the batch contains. */
  lemma {:induction false} UpdatesRelayed(eng: DocEngine, st: Dispatch, conn: ConnId, items: seq<Item>)
    ensures UpdatePayloads(HandleItems(eng, st, conn, items).broadcast)
         == UpdatePayloads(st.broadcast) + RelayedUpdates(eng, items)
    decreases |items|
  {
    if items != [] {
      var next := HandleItem(eng, st, conn, items[0]);
      var added := next.broadcast[|st.broadcast|..];
      assert next.broadcast == st.broadcast + added;
      UpdatePayloadsAppend(st.broadcast, added);
      assert UpdatePayloads(added) == RelayedUpdates(eng, [items[0]]) by {
        if |added| == 1 {
          assert added == [added[0]];
          assert UpdatePayloads(added) == (if added[0].Sync? && added[0].sync.Update? then [added[0].sync.data] else []) + UpdatePayloads([]);
        }
        assert RelayedUpdates(eng, [items[0]]) ==
          (if items[0].Ok? && items[0].value.Sync? && items[0].value.sync.Update? && eng.decodeUpdate(items[0].value.sync.data, V1).Some?
           then [items[0].value.sync.data] else []) + RelayedUpdates(eng, []);
      }
      UpdatesRelayed(eng, next, conn, items[1..]);
      assert RelayedUpdates(eng, items) == RelayedUpdates(eng, [items[0]]) + RelayedUpdates(eng, items[1..]);
    }
  }

  // ----- the classification table over a batch -----

  /** The kind of a message. */
  datatype Kind = KSyncStep1 | KSyncStep2 | KUpdate | KAuth | KAwarenessQuery | KAwareness | KCustom

  function KindOf(m: Message): Kind
  {
    match m
    case Sync(SyncStep1(_)) => KSyncStep1
    case Sync(SyncStep2(_)) => KSyncStep2
    case Sync(Update(_)) => KUpdate
    case Auth(_) => KAuth
    case AwarenessQuery => KAwarenessQuery
    case Awareness(_) => KAwareness
    case Custom(_, _) => KCustom
  }

  function Kinds(ms: seq<Message>): seq<Kind>
  {
    seq(|ms|, i requires 0 <= i < |ms| => KindOf(ms[i]))
  }

  lemma KindsAppend(a: seq<Message>, b: seq<Message>)
    ensures Kinds(a + b) == Kinds(a) + Kinds(b)
  {
  }

  /** Reference reply of one reader result under the dispatch table. */
  function ExpectedReply(item: Item): seq<Kind>
  {
    if item.Err? then []
    else match KindOf(item.value)
      case KSyncStep1 => [KSyncStep2]
      case KAuth => [KAuth]
      case KAwarenessQuery => [KAwareness]
      case _ => []
  }

  /** Reference broadcast of one reader result under the dispatch table. */
  function ExpectedBroadcast(eng: DocEngine, item: Item): seq<Kind>
  {
    if item.Err? then []
    else match KindOf(item.value)
      case KUpdate => if eng.decodeUpdate(item.value.sync.data, V1).Some? then [KUpdate] else []
      case KAwareness => [KAwareness]
      case _ => []
  }

  function ExpectedReplies(items: seq<Item>): seq<Kind>
  {
    if items == [] then [] else ExpectedReply(items[0]) + ExpectedReplies(items[1..])
  }

  function ExpectedBroadcasts(eng: DocEngine, items: seq<Item>): seq<Kind>
  {
    if items == [] then [] else ExpectedBroadcast(eng, items[0]) + ExpectedBroadcasts(eng, items[1..])
  }

  /** The presence store can always produce its full diff. */
  ghost predicate PresenceEncodes(eng: DocEngine)
  {
    forall p :: eng.encodePresence(p).Some?
  }

  /** One reader result, when the presence store can always encode itself,
      adds exactly the table's entries to the two lists. */
  lemma HandleItemKinds(eng: DocEngine, st: Dispatch, conn: ConnId, item: Item)
    requires PresenceEncodes(eng)
    ensures Kinds(HandleItem(eng, st, conn, item).reply) == Kinds(st.reply) + ExpectedReply(item)
    ensures Kinds(HandleItem(eng, st, conn, item).broadcast) == Kinds(st.broadcast) + ExpectedBroadcast(eng, item)
  {
    var st' := HandleItem(eng, st, conn, item);
    var newReply := st'.reply[|st.reply|..];
    var newBroadcast := st'.broadcast[|st.broadcast|..];
    assert st'.reply == st.reply + newReply;
    assert st'.broadcast == st.broadcast + newBroadcast;
    KindsAppend(st.reply, newReply);
    KindsAppend(st.broadcast, newBroadcast);
    assert eng.encodePresence(st.room.presence).Some?;
    if item.Ok? && item.value.Awareness? {
      assert eng.encodePresence(eng.applyPresence(st.room.presence, item.value.update).after).Some?;
    }
    assert Kinds(newReply) == ExpectedReply(item);
    assert Kinds(newBroadcast) == ExpectedBroadcast(eng, item);
  }

  /** Proof step only (no source counterpart): one unfolding of the batch
      dispatch, stated apart so the inductions below stay small. */
  lemma HandleItemsCons(eng: DocEngine, st: Dispatch, conn: ConnId, items: seq<Item>)
    requires items != []
    ensures HandleItems(eng, st, conn, items) == HandleItems(eng, HandleItem(eng, st, conn, items[0]), conn, items[1..])
  {
  }

  /** Proof step only (no source counterpart): associativity of `+` on the
      kind lists, stated apart from the dispatch definitions so the
      inductions below stay within their resource budget. */
  lemma Regroup(k0: seq<Kind>, e0: seq<Kind>, rest: seq<Kind>, k1: seq<Kind>, k2: seq<Kind>)
    requires k1 == k0 + e0
    requires k2 == k1 + rest
    ensures k2 == k0 + (e0 + rest)
  {
  }

  /** The dispatch table over a batch, reply side: one `SyncStep2` per
      `SyncStep1`, one `Auth` per `Auth` and one `Awareness` per
      `AwarenessQuery`, in reader order, and nothing for any other input. */
  lemma {:induction false} HandleItemsReplyKinds(eng: DocEngine, st: Dispatch, conn: ConnId, items: seq<Item>)
    requires PresenceEncodes(eng)
    ensures Kinds(HandleItems(eng, st, conn, items).reply) == Kinds(st.reply) + ExpectedReplies(items)
    decreases |items|
  {
    if items == [] {
      assert Kinds(st.reply) + [] == Kinds(st.reply);
    } else {
      var next := HandleItem(eng, st, conn, items[0]);
      var fin := HandleItems(eng, next, conn, items[1..]);
      HandleItemsCons(eng, st, conn, items);
      HandleItemKinds(eng, st, conn, items[0]);
      HandleItemsReplyKinds(eng, next, conn, items[1..]);
      Regroup(Kinds(st.reply), ExpectedReply(items[0]), ExpectedReplies(items[1..]), Kinds(next.reply), Kinds(fin.reply));
    }
  }

  /** The dispatch table over a batch, broadcast side: one `Update` per
      `Update` that decodes and one `Awareness` per `Awareness`, in reader
      order, and nothing for any other input. */
  lemma {:induction false} HandleItemsBroadcastKinds(eng: DocEngine, st: Dispatch, conn: ConnId, items: seq<Item>)
    requires PresenceEncodes(eng)
    ensures Kinds(HandleItems(eng, st, conn, items).broadcast) == Kinds(st.broadcast) + ExpectedBroadcasts(eng, items)
    decreases |items|
  {
    if items == [] {
      assert Kinds(st.broadcast) + [] == Kinds(st.broadcast);
    } else {
      var next := HandleItem(eng, st, conn, items[0]);
      var fin := HandleItems(eng, next, conn, items[1..]);
      HandleItemsCons(eng, st, conn, items);
      HandleItemKinds(eng, st, conn, items[0]);
      HandleItemsBroadcastKinds(eng, next, conn, items[1..]);
      Regroup(Kinds(st.broadcast), ExpectedBroadcast(eng, items[0]), ExpectedBroadcasts(eng, items[1..]),
              Kinds(next.broadcast), Kinds(fin.broadcast));
    }
  }

  // ----- ownership and cleanup -----

  /** A connection that introduced presence clients with an awareness diff
      and then disconnects removes exactly those clients' states (and the
      ones it owned before, minus what the diff removed) from the store. */
  lemma AwarenessThenDisconnect(eng: DocEngine, r: Room, conn: ConnId, u: AwarenessUpdate)
    ensures
      var ch := eng.applyPresence(r.presence, u);
      var owned := (if conn in r.connections then r.connections[conn] else {}) + ch.added - ch.removed;
      var r1 := HandleItem(eng, Dispatch(r, [], []), conn, Ok(Awareness(u))).room;
      var r2 := Disconnect(eng, r1, conn).0;
      && conn !in r2.connections
      && r2.presence.states.Keys == ch.after.states.Keys - owned
  {
  }

  /** The connection table does not keep each client id with a single
      owner: when connection `c`'s diff reports a client as added that
      connection `a` already owns, both connections own it afterwards, and
      a later disconnect of either one removes that client's state. */
  lemma OwnershipMayOverlap(eng: DocEngine, r: Room, a: ConnId, c: ConnId, id: ClientId, u: AwarenessUpdate)
    requires a != c && a in r.connections && id in r.connections[a]
    requires id in eng.applyPresence(r.presence, u).added && id !in eng.applyPresence(r.presence, u).removed
    ensures
      var r1 := HandleItem(eng, Dispatch(r, [], []), c, Ok(Awareness(u))).room;
      && id in r1.connections[a] && id in r1.connections[c]
      && id !in Disconnect(eng, r1, a).0.presence.states
      && id !in Disconnect(eng, r1, c).0.presence.states
  {
  }

  /** Connecting makes a room alive. */
  lemma ConnectMakesAlive(eng: DocEngine, r: Room, conn: ConnId)
    ensures IsAlive(Connect(eng, r, conn).0)
  {
    assert conn in Connect(eng, r, conn).0.connections;
  }

  /** A room stays alive after a disconnect exactly when some other
      connection remains. */
  lemma DisconnectLiveness(eng: DocEngine, r: Room, conn: ConnId)
    ensures IsAlive(Disconnect(eng, r, conn).0) <==> exists c :: c in r.connections && c != conn
  {
    var r' := Disconnect(eng, r, conn).0;
    if exists c :: c in r.connections && c != conn {
      var c :| c in r.connections && c != conn;
      assert c in r'.connections;
    }
  }

  /** Two connections: the room survives the first disconnect and dies with
      the second. */
  lemma TwoConnectionsLifecycle(eng: DocEngine, r: Room, a: ConnId, b: ConnId)
    requires r.connections == map[]
    requires a != b
    ensures
      var r1 := Connect(eng, Connect(eng, r, a).0, b).0;
      var r2 := Disconnect(eng, r1, a).0;
      var r3 := Disconnect(eng, r2, b).0;
      IsAlive(r1) && IsAlive(r2) && !IsAlive(r3)
  {
    var r1 := Connect(eng, Connect(eng, r, a).0, b).0;
    assert r1.connections.Keys == {a, b};
    DisconnectLiveness(eng, r1, a);
    var r2 := Disconnect(eng, r1, a).0;
    assert b in r1.connections && b != a;
    DisconnectLiveness(eng, r2, b);
    assert r2.connections.Keys == {b};
  }
}

=== FILE: settings.dfy ===
/** Per-room configuration and its resolution from an ordered prefix table. */
module Settings {
  import opened Protocol

  datatype RoomSettings = RoomSettings(
    protocolVersion: ProtocolVersion,
    namePrefix: bool,
    serverStartSync: bool)

  /** `YRoomSettings::default`: V1, no name prefix, server-started sync. */
  const DefaultSettings: RoomSettings := RoomSettings(V1, false, true)

  /** The manager's per-prefix table, in the order it was supplied. */
  type SettingsTable = seq<(string, RoomSettings)>

  /** `str::starts_with`: `prefix` is a literal prefix of `room`. */
  predicate StartsWith(room: string, prefix: string)
  {
    prefix <= room
  }

  /** Entry `i` is the first one in table order whose prefix matches. */
  ghost predicate IsFirstMatch(table: SettingsTable, room: string, i: int)
  {
    && 0 <= i < |table|
    && StartsWith(room, table[i].0)
    && forall j :: 0 <= j < i ==> !StartsWith(room, table[j].0)
  }

  /** No entry of the table matches. */
  ghost predicate NoMatch(table: SettingsTable, room: string)
  {
    forall j :: 0 <= j < |table| ==> !StartsWith(room, table[j].0)
  }

  /** `YRoomManager::find_settings`: first literal-prefix match in stored
      order, falling back to the default. */
  function FindSettings(table: SettingsTable, default: RoomSettings, room: string): (s: RoomSettings)
    ensures NoMatch(table, room) ==> s == default
    ensures !NoMatch(table, room) ==> exists i :: IsFirstMatch(table, room, i) && s == table[i].1
  {
    if |table| == 0 then default
    else if StartsWith(room, table[0].0) then
      assert IsFirstMatch(table, room, 0);
      table[0].1
    else
      var s := FindSettings(table[1..], default, room);
      assert forall j :: 1 <= j < |table| ==> table[j] == table[1..][j - 1];
      assert NoMatch(table, room) <==> NoMatch(table[1..], room);
      assert !NoMatch(table, room) ==> exists i :: IsFirstMatch(table, room, i) && s == table[i].1 by {
        if !NoMatch(table, room) {
          var i :| IsFirstMatch(table[1..], room, i) && s == table[1..][i].1;
          assert IsFirstMatch(table, room, i + 1);
        }
      }
      s
  }

  /** The first match is unique, so the resolver is fully determined by the
      table: any entry that is a first match is the one returned. */
  lemma FirstMatchDetermines(table: SettingsTable, default: RoomSettings, room: string, i: int)
    requires IsFirstMatch(table, room, i)
    ensures FindSettings(table, default, room) == table[i].1
  {
    var s := FindSettings(table, default, room);
    assert !NoMatch(table, room);
    var k :| IsFirstMatch(table, room, k) && s == table[k].1;
    assert k == i;
  }

  /** Entries after the first match are never consulted: appending entries
      to a table that already matches does not change the result. */
  lemma {:induction false} AppendAfterMatch(table: SettingsTable, extra: SettingsTable, default: RoomSettings, room: string)
    requires !NoMatch(table, room)
    ensures FindSettings(table + extra, default, room) == FindSettings(table, default, room)
  {
    var s := FindSettings(table, default, room);
    var i :| IsFirstMatch(table, room, i) && s == table[i].1;
    assert forall j :: 0 <= j < |table| ==> (table + extra)[j] == table[j];
    assert IsFirstMatch(table + extra, room, i);
    FirstMatchDetermines(table + extra, default, room, i);
  }

  /** The manager's constructor reads its configuration from a mapping whose
      key "default" names the fallback settings; every other key is a room
      name prefix. */
  const DefaultKey: string := "default"

  /** Keys of a mapping given as a sequence of pairs are pairwise distinct. */
  ghost predicate DistinctKeys(entries: SettingsTable)
  {
    forall i, j :: 0 <= i < j < |entries| ==> entries[i].0 != entries[j].0
  }

  /** The prefix table built by the constructor: every entry except the
      "default" one, in the mapping's iteration order. */
  function PrefixEntries(entries: SettingsTable): (table: SettingsTable)
    ensures forall e :: e in table <==> e in entries && e.0 != DefaultKey
    ensures |table| <= |entries|
  {
    if |entries| == 0 then []
    else if entries[0].0 == DefaultKey then PrefixEntries(entries[1..])
    else [entries[0]] + PrefixEntries(entries[1..])
  }

  /** The prefix table keeps the mapping's order: filtering a mapping split
      in two is filtering each part and concatenating, and a single entry is
      kept exactly when its key is not "default". */
  lemma {:induction false} PrefixEntriesAppend(a: SettingsTable, b: SettingsTable)
    ensures PrefixEntries(a + b) == PrefixEntries(a) + PrefixEntries(b)
    ensures forall e :: PrefixEntries([e]) == (if e.0 == DefaultKey then [] else [e])
  {
    if a == [] {
      assert a + b == b;
    } else {
      assert (a + b)[0] == a[0];
      assert (a + b)[1..] == a[1..] + b;
      PrefixEntriesAppend(a[1..], b);
    }
  }

  /** The constructor's fallback: the value under "default" if present,
      otherwise `DefaultSettings`. */
  function DefaultEntry(entries: SettingsTable): (s: RoomSettings)
    requires DistinctKeys(entries)
    ensures (forall i :: 0 <= i < |entries| ==> entries[i].0 != DefaultKey) ==> s == DefaultSettings
    ensures forall i :: 0 <= i < |entries| && entries[i].0 == DefaultKey ==> s == entries[i].1
  {
    if |entries| == 0 then DefaultSettings
    else if entries[0].0 == DefaultKey then entries[0].1
    else
      assert DistinctKeys(entries[1..]) by {
        forall i, j | 0 <= i < j < |entries[1..]| ensures entries[1..][i].0 != entries[1..][j].0 {
          assert entries[1..][i] == entries[i + 1] && entries[1..][j] == entries[j + 1];
        }
      }
      var s := DefaultEntry(entries[1..]);
      assert forall i :: 1 <= i < |entries| ==> entries[i] == entries[1..][i - 1];
      s
  }

  /** Entry `i` of the constructor's mapping is the first non-"default"
      entry whose prefix matches `room`. */
  ghost predicate IsFirstPrefixMatch(entries: SettingsTable, room: string, i: int)
  {
    && 0 <= i < |entries|
    && entries[i].0 != DefaultKey
    && StartsWith(room, entries[i].0)
    && forall j :: 0 <= j < i ==> entries[j].0 == DefaultKey || !StartsWith(room, entries[j].0)
  }

  /** Building the prefix table keeps the mapping's order: resolving against
      it returns the first matching non-"default" entry of the mapping. */
  lemma {:induction false} PrefixEntriesResolve(entries: SettingsTable, default: RoomSettings, room: string, i: int)
    requires IsFirstPrefixMatch(entries, room, i)
    ensures FindSettings(PrefixEntries(entries), default, room) == entries[i].1
  {
    var rest := PrefixEntries(entries[1..]);
    if entries[0].0 == DefaultKey {
      assert IsFirstPrefixMatch(entries[1..], room, i - 1) by {
        forall j | 0 <= j < i - 1 ensures entries[1..][j] == entries[j + 1] { }
      }
      PrefixEntriesResolve(entries[1..], default, room, i - 1);
    } else if i == 0 {
      assert PrefixEntries(entries)[0] == entries[0];
    } else {
      assert !StartsWith(room, entries[0].0);
      assert PrefixEntries(entries)[1..] == rest;
      assert IsFirstPrefixMatch(entries[1..], room, i - 1) by {
        forall j | 0 <= j < i - 1 ensures entries[1..][j] == entries[j + 1] { }
      }
      PrefixEntriesResolve(entries[1..], default, room, i - 1);
    }
  }

  /** Building the prefix table neither invents nor loses a match: the
      table has no match exactly when no non-"default" key of the mapping
      is a prefix of `room`. */
  lemma {:induction false} PrefixEntriesNoMatch(entries: SettingsTable, room: string)
    ensures NoMatch(PrefixEntries(entries), room) <==>
            (forall j :: 0 <= j < |entries| && entries[j].0 != DefaultKey ==> !StartsWith(room, entries[j].0))
  {
    if |entries| > 0 {
      PrefixEntriesNoMatch(entries[1..], room);
      assert forall j :: 1 <= j < |entries| ==> entries[j] == entries[1..][j - 1];
      var rest := PrefixEntries(entries[1..]);
      if entries[0].0 != DefaultKey {
        assert forall j :: 1 <= j < |rest| + 1 ==> ([entries[0]] + rest)[j] == rest[j - 1];
      }
    }
  }

  /** The scenario of a table `[("docs:", V1 settings)]` with a V2 default:
      "docs:alpha" resolves to the V1 entry and "other" to the V2 default. */
  lemma ResolveScenario()
    ensures
      var v1 := RoomSettings(V1, false, true);
      var v2 := RoomSettings(V2, false, true);
      && FindSettings([("docs:", v1)], v2, "docs:alpha") == v1
      && FindSettings([("docs:", v1)], v2, "other") == v2
  {
    var v1 := RoomSettings(V1, false, true);
    var v2 := RoomSettings(V2, false, true);
    assert StartsWith("docs:alpha", "docs:");
    FirstMatchDetermines([("docs:", v1)], v2, "docs:alpha", 0);
    assert !StartsWith("other", "docs:") by { assert "other"[0] != "docs:"[0]; }
  }
}

=== FILE: wrappers.dfy ===
/** Failure-carrying values used throughout the model: `Option` for Rust's
    `Option<T>` and `Result` for `Result<T, E>`. */
module Wrappers {

  datatype Option<+T> = None | Some(value: T)

  datatype Result<+T, +E> = Ok(value: T) | Err(error: E)
}
